=== FILE: README.md ===
# Dataset explorer API: request handling core

This project models, in Dafny, the pure decision logic of the Express server
in `server/index.js`. That server sits between a web client and a
PostgreSQL database. The model covers:

- the SELECT gate that preview-sql and save-dataset apply to client SQL;
- the preview rewrite, which trims the text, drops trailing semicolons and
  appends ` LIMIT 20` unless the text already matches `/limit\s+\d+/i`;
- how create-indicator extracts the first integer of the first result row;
- the validation and statement choice of attribute-value, data,
  grouped-count, sample-data, preview-sql, save-dataset and
  create-indicator;
- the statements the xlsx upload builds: one `CREATE TABLE` whose text
  columns come from the first row's keys, then one parameterised `INSERT`
  per row.

Each handler is a pure function from the request and the store's answer to
an `Exchange`: the statements it sends, in order, and the reply it gives.
The store is not modelled. Its answer to the first result-read statement is
an input, `Rows(...)` or `Failed(message)`.

Modules:

- `Strings`: trimming, ASCII lower-casing, digit strings, decimal rendering
  and the semicolon strip.
- `JsValues`: JavaScript values, truthiness, string conversion and
  `parseInt(x, 10)`.
- `QueryText`: the SELECT gate, the LIMIT test (a regular-expression
  specification and a scanner proved equal to it) and the preview rewrite.
- `Indicator`: the first-integer scan.
- `Statements`: the statement shapes and their SQL text and parameters.
- `Gateway`: the handlers.
- `Upload`: the xlsx upload.

Two facts about `server/index.js` shape the model:

- The upload looks each column up by key (`row[col]`, line 316). A later
  row's values therefore line up with the first row's columns whatever
  order its keys come in (`Upload.InsertFor`, `Upload.InsertIgnoresOtherKeys`).
  Keys beyond the first row's columns are dropped. A column the row does
  not have as its own property is read as `undefined` and sent as NULL
  (but see `JsValues.Get` under "Left out").
- grouped-count sends exactly one of the two queries of lines 339-353,
  with no filter on empty values.

## Model

| member | source | states |
|---|---|---|
| `QueryText.IsSelectCharacterization` | server/index.js:157 | A body's `sql` passes the gate exactly when it is a string whose text is some whitespace, then `select` in any ASCII case, then anything. |
| `QueryText.HasLimitClauseMatches` | server/index.js:162 | The executable LIMIT test holds exactly when `/limit\s+\d+/i` matches somewhere: `limit` in any case, at least one whitespace, at least one digit. |
| `QueryText.RewriteDropsSemicolon` | server/index.js:161-164 | A text that already has a LIMIT clause, followed by one `;`, is sent with only the `;` removed. |
| `QueryText.PreviewBase` | server/index.js:161 | The trimmed, semicolon-stripped text is a prefix of the trimmed SQL, everything after it is `;`, and it does not end in `;`. |
| `QueryText.PreviewRewrite` | server/index.js:161-164 | The text sent for a preview starts with the stripped SQL and always contains a LIMIT clause the regular expression accepts. |
| `QueryText.PreviewRewriteLimit` | server/index.js:161-164 | A stripped text that already has a LIMIT clause is sent unchanged; any other text gets ` LIMIT 20` appended. |
| `QueryText.PreviewBaseOfSelect` | server/index.js:157-161 | For SQL that passed the gate, the stripped text is at least six characters long and does not start with whitespace. |
| `QueryText.PreviewRewriteIdempotent` | server/index.js:161-164 | Rewriting a rewritten gated query leaves it unchanged exactly when it does not end in whitespace. |
| `QueryText.RewriteOfAppended` | server/index.js:162-164 | A text that received ` LIMIT 20` is a fixed point of the rewrite. |
| `QueryText.PreviewKeepsExistingLimit` | server/index.js:161-164 | `select * from x LIMIT 5;` is sent as `select * from x LIMIT 5`, with no second LIMIT. |
| `QueryText.PreviewRewriteNotIdempotent` | server/index.js:161 | `select 1 limit 5 ;` is rewritten to text that a second rewrite changes again. |
| `QueryText.SpacedSemicolonRewrite` | server/index.js:161 | Trimming happens before the semicolon strip, so `select 1 limit 5 ;` keeps the space that stood before its `;`. |
| `Strings.TrimStart` | server/index.js:157 | Drops exactly the maximal whitespace prefix. |
| `Strings.TrimEnd` | server/index.js:157 | Drops exactly the maximal whitespace suffix. |
| `Strings.TrimCharacterization` | server/index.js:161 | `trim` of whitespace + m + whitespace is m whenever m has non-whitespace ends. |
| `Strings.TrimIdempotent` | server/index.js:161 | Trimming a trimmed string changes nothing. |
| `Strings.TrimKeeps` | server/index.js:161 | A text that neither starts nor ends with whitespace is its own trim. |
| `Strings.StripTrailingSemicolons` | server/index.js:161 | `replace(/;*$/, '')` keeps a prefix, removes only `;`, and leaves no trailing `;`. |
| `Strings.ShowNat` | server/index.js:317 | A natural number renders as a non-empty digit string without a leading zero, whose decimal value is the number. |
| `JsValues.ParseIntAfterSpace` | server/index.js:145 | `parseInt` skips leading whitespace: a whitespace prefix never changes the result. |
| `JsValues.ParseIntOfUnsigned` | server/index.js:145 | `parseInt(s, 10)` of whitespace, digits and a tail that does not start with a digit is the base-10 value of the digits. |
| `JsValues.ParseIntOfNegative` | server/index.js:145 | The same with a leading `-` gives the negated value. |
| `JsValues.ParseIntOfPositive` | server/index.js:145 | The same with a leading `+` gives the value itself. |
| `JsValues.ParseIntOfDigits` | server/index.js:215-216 | A string that `/^\d+$/` accepts parses to its base-10 value. |
| `JsValues.ParseIntShowInt` | server/index.js:82 | `parseInt` reads back the decimal text of any integer. |
| `JsValues.Get` | server/index.js:316 | A read of an own property: `undefined` when the object has no such own key, and otherwise the value stored under it. |
| `Indicator.FirstInteger` | server/index.js:210-219 | No result exactly when no value is an integer or an all-digit string; otherwise the value of the first one, in order. |
| `Indicator.QueryResult` | server/index.js:206-220 | `null` for no rows; otherwise the first integer-like value of the first row, or `null` when there is none. |
| `Statements.MarkerNames` | server/index.js:317 | Marker k is `$` followed by a numeral that reads back as k. |
| `Statements.PlaceholdersNamePositions` | server/index.js:317 | Among the n markers of an insert, marker i (from 0) names exactly the value at position i. |
| `Gateway.CountValue` | server/index.js:82 | The count is 0 without a first row or with a falsy `cnt`. A `cnt` that is a digit string, as the store sends COUNT, is replied as the base-10 value of its digits, leading zeros included; an integral `cnt` is replied as itself. |
| `Gateway.CountValueOfDecimal` | server/index.js:80-83 | A count the store reports as a decimal string is replied as that number, zero included. |
| `Gateway.AttributeValue` | server/index.js:67-89 | A truthy indicator takes precedence and selects the indicator branch; otherwise a truthy table and column select the count branch. Nothing is issued, with a 400, exactly when neither applies, and 404 happens exactly for an indicator whose lookup found nothing. |
| `Gateway.IndicatorValue` | server/index.js:70-77 | One lookup by name; the reply is the first row's `query_result`, 404 when no row came back, and 500 with the store's message on failure. |
| `Gateway.ColumnCountValue` | server/index.js:78-83 | One count of the column's non-null values; the reply is the count, or 500 with the store's message on failure. |
| `Gateway.Data` | server/index.js:279-292 | Nothing is issued, with a 400, exactly when the table is falsy or the columns are not a non-empty array. Otherwise one select of those columns, in order, is issued, and the reply is its rows, or 500 with the store's message. |
| `Gateway.GroupedCount` | server/index.js:332-359 | The reply is 400, with nothing issued, exactly when table or xAxis is falsy. Otherwise one grouped count is issued, counting all rows exactly when no indicator is given and the indicator's non-null values otherwise. Its reply is the rows, or 500 with the store's message. |
| `Gateway.SampleLimit` | server/index.js:145 | The limit is never zero. It is what `parseInt` reads from the parameter whenever that is a non-zero number, and 10 whenever `parseInt` reads NaN or zero. |
| `Gateway.SampleLimitOfText` | server/index.js:145 | For any parameter whose text is whitespace, an optional sign, digits and a tail that does not continue the digits (such as `" 7abc"`, `"+7"`, `"007"`, or the array `["3","4"]`), the limit is the signed value of the digits, or 10 when that is zero. |
| `Gateway.SampleLimitWithoutDigits` | server/index.js:145 | Any parameter whose text has no digit right after its leading whitespace and optional sign gets the limit 10. |
| `Gateway.SampleLimitDefaults` | server/index.js:145 | Instances: a missing limit, `""`, `"all"` and `"0"` each give 10. The general forms are `Gateway.SampleLimit` and `Gateway.SampleLimitWithoutDigits`. |
| `Gateway.SampleData` | server/index.js:143-152 | One sample read with the computed limit. The reply is the rows, or 500 with the store's message exactly when the store fails. |
| `Gateway.PreviewSql` | server/index.js:155-171 | The reply is 400, with nothing issued, exactly when the gate rejects the SQL. Otherwise one query is issued, the rewrite, which always carries a LIMIT clause, and the reply is `{rows}` or 500 with the store's message. |
| `Gateway.SaveDataset` | server/index.js:402-424 | The reply is 400, with nothing issued, exactly when tableName is falsy or the gate rejects the SQL. Otherwise the dataset table is ensured and the untrimmed SQL recorded, and the reply is the 200 success message naming the dataset. |
| `Gateway.CreateIndicator` | server/index.js:198-230 | 400 exactly when name or query is falsy; otherwise the client query runs first. On success the record stores the name, description and query as sent, the first-integer result, and `created_by` or null; the reply is `{success: true, query_result}` with that result. |
| `Upload.InsertFor` | server/index.js:315-321 | Each row's INSERT names the first row's columns, in order, and under each gives the row's own value for that key, or undefined. |
| `Upload.UploadXlsx` | server/index.js:295-329 | 400 without file or table, or for an empty sheet; otherwise one CREATE TABLE over the first row's keys and then one INSERT per row, in sheet order, with the fixed success reply. |
| `Upload.FirstRowInsertedWhole` | server/index.js:310-316 | The first row's INSERT carries exactly its own values, in its own key order. |
| `Upload.InsertSqlBindsRow` | server/index.js:313-320 | The INSERT sent for a row has one parameter per column, holding the row's value for that column. Its text names the table and ends with the markers `$1` to `$n` in order, so marker i names parameter i (`Statements.PlaceholdersNamePositions`). |
| `Upload.InsertIgnoresOtherKeys` | server/index.js:315-316 | Two rows that agree on the first row's columns give the same INSERT, whatever other keys they have. |

## Left out

- Executing SQL: the database, the connection pool, `dotenv` and the
  startup `CREATE TABLE` statements are not modelled. The store's answer to
  the first result-read statement of a handler is a parameter.
- Gateway.SaveDataset: a failure of either write (the CREATE TABLE of
  dataset_master or the INSERT of the record) is not modelled. The source
  then replies 500 with the error message (server/index.js:421-422); the
  model always replies 200 once both are sent.
- Gateway.CreateIndicator: a failure of the record insert after the client
  query succeeded is not modelled. The source then replies 500 with the
  error message (server/index.js:227-228); the model replies 200.
- Upload.UploadXlsx: a failure of the CREATE TABLE or of any INSERT is not
  modelled. The source then replies 500 with the error message and leaves
  the rows inserted before the failure committed (server/index.js:325-327);
  the model replies 200.
- Express routing, `cors`, JSON body parsing, `listen` and logging are
  plumbing with no decision logic.
- Multer storage, `XLSX.readFile` and `sheet_to_json`, and the
  `fs.unlinkSync` cleanup are file I/O. The upload handler gets a flag for
  the file's presence and the parsed rows. A parser exception, which the
  source turns into a 500, is not modelled.
- derived-attribute (server/index.js:94-116): left out because its
  validation rests on `parseFloat` and `isNaN` over floating-point numbers.
- run-sql, the table and column listings, table-metadata, test-db, and the
  listings of derived attributes, indicators and datasets: each sends a
  fixed or single-parameter query and replies with the rows, with no logic
  to model.
- The commented-out save-dataset variant is dead code.
- Serialising replies to JSON is not modelled. For example, NaN would be
  sent as `null`.
- `req.user` is never set in this server, so `created_by` of a saved
  dataset is always `undefined`, which is sent as NULL.
- QueryText.PreviewRewriteIdempotent: idempotence holds only for rewrites
  that do not end in whitespace, not for every query. The source trims
  before it strips semicolons, so whitespace before a trailing `;`
  survives the first rewrite (`QueryText.PreviewRewriteNotIdempotent`).
- Strings.Lower: ASCII lower-casing stands in for `toLowerCase`. For the
  prefix test against `select` this is exact, because no non-ASCII
  character lower-cases to one of its letters. The case-insensitive regular
  expression is exact too: without the `u` flag, JavaScript never matches a
  non-ASCII character against an ASCII letter.
- JsValues.ShowInt: integers render in plain decimal. JavaScript switches
  to exponent form at 1e21 and rounds integers beyond 2^53. Likewise
  `JsValues.ParseInt` is exact where `parseInt` would round long digit
  strings to the nearest double.
- Indicator.FirstInteger: the integer it reports is exact, while the
  source's `parseInt` rounds digit strings beyond 2^53 to the nearest
  double.
- JsValues.Get: only own properties are modelled. In JavaScript, `row[col]`
  also reads inherited `Object.prototype` members, so a row without a
  column named `constructor` or `toString` reads a function there, not
  `undefined`. The handlers' fixed body keys never name such a member;
  spreadsheet headers could.
- JsValues.ToJsString: an object with its own `toString` property is
  rendered as `[object Object]`, where JavaScript's string conversion calls
  that property. `express.json()` makes such objects from bodies like
  `{"table": {"toString": 1}}`, and the default query parser makes them
  from `?limit[toString]=1`; a non-callable one throws a TypeError. Inside
  the handler's `try` at server/index.js:80, 286 and 340-352 the source
  then replies 500 without sending its statement. At server/index.js:313,
  for an upload whose `table` is such an object, it replies 500 after the
  parse and sends no CREATE or INSERT. At server/index.js:420, in
  save-dataset after both writes, it replies 500 instead of 200. At
  server/index.js:145, in `parseInt` before the `try` of sample-data, the
  error escapes the handler: nothing is sent, no reply is given, and Node
  by default ends the process on the unhandled rejection. The model
  instead converts the object to `[object Object]`, sends the statements
  (for sample-data with the limit 10) and replies as usual.
- JsValues.Truthy: `-0` is not distinguished from `0`; both are falsy.
- JsValues.Record: object properties are taken in the order that
  `Object.keys` reports them, supplied by the caller. The reordering of
  integer-like keys is not derived.
- Strings.IsSpace: the Unicode space separators are those of a fixed
  Unicode version. Strings are Unicode scalar values, not UTF-16 code
  units, which differs only for astral characters.
- Statements.ToSql: a non-string `sql_query` is sent as its string form.
  The `pg` driver's own handling of query objects is not modelled.
- Gateway.Answer: the store's answer is either rows or a failure. The
  array of results that `pg` returns for a string of several statements
  is not modelled. The gate accepts `select 1; select 2`, and preview-sql
  then replies 200 with `rows` undefined (server/index.js:166-167).

=== FILE: gateway.dfy ===
/** The request handlers of the gateway service, each as a pure function
    from the request (its JSON body or route and query parameters) and the
    store's answer to the statement whose result it reads, to the statements
    it sends, in order, and the reply it gives. Validation happens before any
    statement is sent: a rejected request sends nothing. */
module Gateway {
  import opened Wrappers
  import opened Strings
  import opened JsValues
  import opened QueryText
  import opened Indicator
  import opened Statements

  /** The store's answer to the statement whose result the handler reads. */
  datatype Answer = Rows(rows: seq<Record>) | Failed(message: string)

  datatype Reply = Reply(status: nat, body: JsVal)

  /** The statements a request sends, in order, and the reply it gets. */
  datatype Exchange = Exchange(issued: seq<Query>, reply: Reply)

  function ErrorReply(status: nat, message: string): Reply {
    Reply(status, Obj([("error", Str(message))]))
  }

  function OkReply(body: Record): Reply {
    Reply(200, Obj(body))
  }

  function RowsJson(rows: seq<Record>): JsVal {
    Arr(seq(|rows|, i requires 0 <= i < |rows| => Obj(rows[i])))
  }

  /** `null` for no value, the integer otherwise. */
  function OptionJson(o: Option<int>): JsVal {
    match o
    case None => Null
    case Some(v) => Num(Integral(v))
  }

  // ---------------------------------------------------------------------
  // POST /api/attribute-value

  /** The count reply of attribute-value: `parseInt(cnt, 10)` of the first
      row's `cnt` when there is such a row and its `cnt` is truthy, else 0.
      A count sent as a digit string, as the store sends COUNT, or as an
      integer is replied as the number it stands for. */
  function CountValue(rows: seq<Record>): (v: JsVal)
    ensures v.Num? && (v.n.Integral? || v.n.NaN?)
    ensures |rows| == 0 || !Truthy(Get(rows[0], "cnt")) ==> v == Num(Integral(0))
    ensures |rows| > 0 && Truthy(Get(rows[0], "cnt")) ==> v == Num(ParseInt(ToJsString(Get(rows[0], "cnt"))))
    ensures |rows| > 0 && Get(rows[0], "cnt").Str? && |Get(rows[0], "cnt").s| > 0 && AllDigits(Get(rows[0], "cnt").s) ==>
              v == Num(Integral(DigitsValue(Get(rows[0], "cnt").s)))
    ensures |rows| > 0 && Get(rows[0], "cnt").Num? && Get(rows[0], "cnt").n.Integral? ==>
              v == Num(Get(rows[0], "cnt").n)
  {
    if |rows| > 0 && Truthy(Get(rows[0], "cnt")) then
      var c := Get(rows[0], "cnt");
      CountOfCell(c);
      Num(ParseInt(ToJsString(c)))
    else Num(Integral(0))
  }

  lemma {:induction false} CountOfCell(c: JsVal)
    ensures c.Str? && |c.s| > 0 && AllDigits(c.s) ==> ParseInt(ToJsString(c)) == Integral(DigitsValue(c.s))
    ensures c.Num? && c.n.Integral? ==> ParseInt(ToJsString(c)) == c.n
  {
    if c.Str? && |c.s| > 0 && AllDigits(c.s) {
      ParseIntOfDigits(c.s);
    }
    if c.Num? && c.n.Integral? {
      ParseIntShowInt(c.n.i);
    }
  }

  /** The store reports COUNT as a decimal string; the reply carries the
      number it spells, zero included. */
  lemma {:induction false} CountValueOfDecimal(rows: seq<Record>, n: nat)
    requires |rows| > 0 && Get(rows[0], "cnt") == Str(ShowNat(n))
    ensures CountValue(rows) == Num(Integral(n))
  {
    var c := Get(rows[0], "cnt");
    assert Truthy(c) && ToJsString(c) == ShowInt(n);
    ParseIntShowInt(n);
  }

  /** The indicator branch: the cached `query_result` of the named
      indicator, 404 when no indicator has that name. */
  function IndicatorValue(indicator: JsVal, answer: Answer): (x: Exchange)
    ensures x.issued == [IndicatorLookup(indicator)]
    ensures answer.Failed? ==> x.reply == ErrorReply(500, answer.message)
    ensures answer.Rows? && |answer.rows| == 0 ==> x.reply == ErrorReply(404, "Indicator not found")
    ensures answer.Rows? && |answer.rows| > 0 ==>
              x.reply == OkReply([("value", Get(answer.rows[0], "query_result"))])
  {
    var issued := [IndicatorLookup(indicator)];
    match answer
    case Failed(m) => Exchange(issued, ErrorReply(500, m))
    case Rows(rows) =>
      if |rows| > 0 then Exchange(issued, OkReply([("value", Get(rows[0], "query_result"))]))
      else Exchange(issued, ErrorReply(404, "Indicator not found"))
  }

  /** The column branch: the number of non-null values in the column. */
  function ColumnCountValue(table: JsVal, column: JsVal, answer: Answer): (x: Exchange)
    ensures x.issued == [ColumnCount(ToJsString(table), ToJsString(column))]
    ensures answer.Failed? ==> x.reply == ErrorReply(500, answer.message)
    ensures answer.Rows? ==> x.reply == OkReply([("value", CountValue(answer.rows))])
  {
    var issued := [ColumnCount(ToJsString(table), ToJsString(column))];
    match answer
    case Failed(m) => Exchange(issued, ErrorReply(500, m))
    case Rows(rows) => Exchange(issued, OkReply([("value", CountValue(rows))]))
  }

  /** A truthy indicator takes precedence over table and column. */
  function AttributeValue(body: Record, answer: Answer): (x: Exchange)
    ensures var indicator := Get(body, "indicator");
            Truthy(indicator) ==> x == IndicatorValue(indicator, answer)
    ensures var indicator, table, column := Get(body, "indicator"), Get(body, "table"), Get(body, "column");
            !Truthy(indicator) && Truthy(table) && Truthy(column) ==> x == ColumnCountValue(table, column, answer)
    ensures var indicator, table, column := Get(body, "indicator"), Get(body, "table"), Get(body, "column");
            x.issued == [] <==> !Truthy(indicator) && !(Truthy(table) && Truthy(column))
    ensures x.issued == [] ==> x.reply == ErrorReply(400, "Missing table/column or indicator")
    ensures x.reply.status == 404 <==> Truthy(Get(body, "indicator")) && answer.Rows? && |answer.rows| == 0
  {
    var table, column, indicator := Get(body, "table"), Get(body, "column"), Get(body, "indicator");
    if Truthy(indicator) then IndicatorValue(indicator, answer)
    else if Truthy(table) && Truthy(column) then ColumnCountValue(table, column, answer)
    else Exchange([], ErrorReply(400, "Missing table/column or indicator"))
  }

  // ---------------------------------------------------------------------
  // POST /api/data

  function Data(body: Record, answer: Answer): (x: Exchange)
    ensures var table, columns := Get(body, "table"), Get(body, "columns");
            x.issued == [] <==> !(Truthy(table) && columns.Arr? && |columns.items| > 0)
    ensures x.issued == [] ==> x.reply == ErrorReply(400, "Invalid table or columns")
    ensures var table, columns := Get(body, "table"), Get(body, "columns");
            x.issued != [] ==>
              && |x.issued| == 1 && x.issued[0].ColumnSelect?
              && x.issued[0].table == ToJsString(table)
              && |x.issued[0].columns| == |columns.items|
              && forall i | 0 <= i < |columns.items| :: x.issued[0].columns[i] == ToJsString(columns.items[i])
    ensures x.reply.status == 400 <==> x.issued == []
    ensures x.issued != [] && answer.Failed? ==> x.reply == ErrorReply(500, answer.message)
    ensures x.issued != [] && answer.Rows? ==> x.reply == Reply(200, RowsJson(answer.rows))
  {
    var table, columns := Get(body, "table"), Get(body, "columns");
    if !Truthy(table) || !Truthy(columns) || !columns.Arr? || |columns.items| == 0 then
      Exchange([], ErrorReply(400, "Invalid table or columns"))
    else
      var names := seq(|columns.items|, i requires 0 <= i < |columns.items| => ToJsString(columns.items[i]));
      var issued := [ColumnSelect(ToJsString(table), names)];
      match answer
      case Failed(m) => Exchange(issued, ErrorReply(500, m))
      case Rows(rows) => Exchange(issued, Reply(200, RowsJson(rows)))
  }

  // ---------------------------------------------------------------------
  // POST /api/grouped-count

  function GroupedCount(body: Record, answer: Answer): (x: Exchange)
    ensures var table, xAxis := Get(body, "table"), Get(body, "xAxis");
            x.issued == [] <==> !Truthy(table) || !Truthy(xAxis)
    ensures x.issued == [] ==> x.reply == ErrorReply(400, "Missing table or xAxis")
    ensures var table, xAxis := Get(body, "table"), Get(body, "xAxis");
            x.issued != [] ==>
              && |x.issued| == 1 && x.issued[0].GroupCount?
              && x.issued[0].table == ToJsString(table) && x.issued[0].xAxis == ToJsString(xAxis)
    ensures x.issued != [] ==> (x.issued[0].count == AllRows <==> !Truthy(Get(body, "indicator")))
    ensures var indicator := Get(body, "indicator");
            x.issued != [] && Truthy(indicator) ==> x.issued[0].count == NonNull(ToJsString(indicator))
    ensures x.reply.status == 400 <==> x.issued == []
    ensures x.issued != [] && answer.Failed? ==> x.reply == ErrorReply(500, answer.message)
    ensures x.issued != [] && answer.Rows? ==> x.reply == Reply(200, RowsJson(answer.rows))
  {
    var table, xAxis, indicator := Get(body, "table"), Get(body, "xAxis"), Get(body, "indicator");
    if !Truthy(table) || !Truthy(xAxis) then
      Exchange([], ErrorReply(400, "Missing table or xAxis"))
    else
      var count := if Truthy(indicator) then NonNull(ToJsString(indicator)) else AllRows;
      var issued := [GroupCount(ToJsString(table), ToJsString(xAxis), count)];
      match answer
      case Failed(m) => Exchange(issued, ErrorReply(500, m))
      case Rows(rows) => Exchange(issued, Reply(200, RowsJson(rows)))
  }

  // ---------------------------------------------------------------------
  // GET /api/sample-data/:table?limit=

  /** `parseInt(limit, 10) || 10`: what `parseInt` reads when that is a
      non-zero number, and the default 10 when it reads NaN or zero. */
  function SampleLimit(limit: JsVal): (n: int)
    ensures n != 0
    ensures var p := ParseInt(ToJsString(limit));
            p.Integral? && p.i != 0 ==> n == p.i
    ensures var p := ParseInt(ToJsString(limit));
            p.NaN? || p == Integral(0) ==> n == 10
  {
    var p := ParseInt(ToJsString(limit));
    if Truthy(Num(p)) then p.i else 10
  }

  /** A limit whose text is whitespace, an optional sign, a run of digits and
      a tail that does not continue the run: the signed value of the digits,
      or 10 when that value is zero (`"007"`, `" 7abc"`, `"+7"`, `"-0"`). */
  lemma {:induction false} SampleLimitOfText(limit: JsVal, space: string, sign: string, digits: string, rest: string)
    requires AllSpace(space)
    requires sign == "" || sign == "-" || sign == "+"
    requires |digits| > 0 && AllDigits(digits)
    requires rest == [] || !IsDigit(rest[0])
    requires ToJsString(limit) == space + (sign + (digits + rest))
    ensures var v := if sign == "-" then -(DigitsValue(digits) as int) else DigitsValue(digits);
            SampleLimit(limit) == if v == 0 then 10 else v
  {
    var v: int := if sign == "-" then -(DigitsValue(digits) as int) else DigitsValue(digits);
    SignedDigitsParse(ToJsString(limit), space, sign, digits, rest, v);
  }

  lemma {:induction false} SignedDigitsParse(t: string, space: string, sign: string, digits: string, rest: string, v: int)
    requires AllSpace(space)
    requires sign == "" || sign == "-" || sign == "+"
    requires |digits| > 0 && AllDigits(digits)
    requires rest == [] || !IsDigit(rest[0])
    requires t == space + (sign + (digits + rest))
    requires v == if sign == "-" then -(DigitsValue(digits) as int) else DigitsValue(digits)
    ensures ParseInt(t) == Integral(v)
  {
    if sign == "-" {
      ParseIntOfNegative(space, digits, rest);
    } else if sign == "+" {
      ParseIntOfPositive(space, digits, rest);
    } else {
      assert sign + (digits + rest) == digits + rest;
      ParseIntOfUnsigned(space, digits, rest);
    }
  }

  /** A limit whose text has no digit where `parseInt` looks for one (after
      the leading whitespace and an optional sign) falls back to 10. */
  lemma {:induction false} SampleLimitWithoutDigits(limit: JsVal, space: string, sign: string, rest: string)
    requires AllSpace(space)
    requires sign == "" || sign == "-" || sign == "+"
    requires rest == [] || !IsDigit(rest[0])
    requires sign == "" && rest != [] ==> !IsSpace(rest[0]) && rest[0] != '-' && rest[0] != '+'
    requires ToJsString(limit) == space + (sign + rest)
    ensures SampleLimit(limit) == 10
  {
    NoDigitsParse(ToJsString(limit), space, sign, rest);
  }

  lemma {:induction false} NoDigitsParse(t: string, space: string, sign: string, rest: string)
    requires AllSpace(space)
    requires sign == "" || sign == "-" || sign == "+"
    requires rest == [] || !IsDigit(rest[0])
    requires sign == "" && rest != [] ==> !IsSpace(rest[0]) && rest[0] != '-' && rest[0] != '+'
    requires t == space + (sign + rest)
    ensures ParseInt(t) == NaN
  {
    var w := sign + rest;
    assert w == [] || !IsSpace(w[0]);
    ParseIntAfterSpace(space, w);
    if sign != "" {
      assert w[1..] == rest;
    } else {
      assert w == rest;
    }
    assert ParseDigits(rest) == NaN;
  }

  lemma {:induction false} NoDigitsIsNaN(s: string)
    requires s == [] || (!IsSpace(s[0]) && !IsDigit(s[0]) && s[0] != '-' && s[0] != '+')
    ensures ParseInt(s) == NaN
  {
    NoDigitsParse(s, "", "", s);
  }

  /** Instances: a missing limit, the empty string, a word and zero each
      give the default 10. */
  lemma SampleLimitDefaults()
    ensures SampleLimit(Undefined) == 10
    ensures SampleLimit(Str("")) == 10
    ensures SampleLimit(Str("all")) == 10
    ensures SampleLimit(Str("0")) == 10
  {
    SampleLimitMissing();
    SampleLimitEmpty();
    SampleLimitWord();
    SampleLimitZero();
  }

  lemma SampleLimitMissing()
    ensures SampleLimit(Undefined) == 10
  {
    NoDigitsIsNaN("undefined");
  }

  lemma SampleLimitEmpty()
    ensures SampleLimit(Str("")) == 10
  {
    NoDigitsIsNaN("");
  }

  lemma SampleLimitWord()
    ensures SampleLimit(Str("all")) == 10
  {
    NoDigitsIsNaN("all");
  }

  lemma SampleLimitZero()
    ensures SampleLimit(Str("0")) == 10
  {
    assert ShowInt(0) == "0";
    ParseIntShowInt(0);
  }

  function SampleData(table: string, limit: JsVal, answer: Answer): (x: Exchange)
    ensures x.issued == [SampleRows(table, SampleLimit(limit))]
    ensures answer.Failed? <==> x.reply.status == 500
    ensures answer.Failed? ==> x.reply == ErrorReply(500, answer.message)
    ensures answer.Rows? ==> x.reply == Reply(200, RowsJson(answer.rows))
  {
    var issued := [SampleRows(table, SampleLimit(limit))];
    match answer
    case Failed(m) => Exchange(issued, ErrorReply(500, m))
    case Rows(rows) => Exchange(issued, Reply(200, RowsJson(rows)))
  }

  // ---------------------------------------------------------------------
  // POST /api/preview-sql

  function PreviewSql(body: Record, answer: Answer): (x: Exchange)
    ensures x.issued == [] <==> !IsSelect(Get(body, "sql"))
    ensures x.issued == [] ==> x.reply == ErrorReply(400, "Only SELECT queries are allowed.")
    ensures x.issued != [] ==> x.issued == [PreviewQuery(PreviewRewrite(Get(body, "sql").s))]
    ensures x.issued != [] ==> MatchesLimit(x.issued[0].text)
    ensures x.reply.status == 400 <==> x.issued == []
    ensures x.issued != [] && answer.Failed? ==> x.reply == ErrorReply(500, answer.message)
    ensures x.issued != [] && answer.Rows? ==> x.reply == OkReply([("rows", RowsJson(answer.rows))])
  {
    var sql := Get(body, "sql");
    if !IsSelect(sql) then
      Exchange([], ErrorReply(400, "Only SELECT queries are allowed."))
    else
      var issued := [PreviewQuery(PreviewRewrite(sql.s))];
      match answer
      case Failed(m) => Exchange(issued, ErrorReply(500, m))
      case Rows(rows) => Exchange(issued, OkReply([("rows", RowsJson(rows))]))
  }

  // ---------------------------------------------------------------------
  // POST /api/save-dataset

  /** Saves the definition only; the SQL is stored as sent, neither trimmed
      nor run. The store's answers to the two writes are not modelled. */
  function SaveDataset(body: Record): (x: Exchange)
    ensures var tableName := Get(body, "tableName");
            x.issued == [] <==> !Truthy(tableName) || !IsSelect(Get(body, "sql"))
    ensures x.issued == [] ==> x.reply == ErrorReply(400, "Invalid tableName or only SELECT queries are allowed.")
    ensures x.issued != [] ==>
              x.issued == [EnsureDatasetMaster, InsertDataset(Get(body, "tableName"), Get(body, "sql").s)]
    ensures x.reply.status == 400 <==> x.issued == []
    ensures x.issued != [] ==>
              x.reply == OkReply([("success", Bool(true)),
                                  ("message", Str("Dataset '" + ToJsString(Get(body, "tableName")) + "' created."))])
  {
    var tableName, sql := Get(body, "tableName"), Get(body, "sql");
    if !Truthy(tableName) || !IsSelect(sql) then
      Exchange([], ErrorReply(400, "Invalid tableName or only SELECT queries are allowed."))
    else
      Exchange([EnsureDatasetMaster, InsertDataset(tableName, sql.s)],
               OkReply([("success", Bool(true)),
                        ("message", Str("Dataset '" + ToJsString(tableName) + "' created."))]))
  }

  // ---------------------------------------------------------------------
  // POST /api/indicator-master

  /** Runs the client's query, then records the indicator with the first
      integer-like value of the first row (or `null`) whether or not one was
      found. The store's answer to the record insert is not modelled. */
  function CreateIndicator(body: Record, answer: Answer): (x: Exchange)
    ensures var name, sqlQuery := Get(body, "indicator_name"), Get(body, "sql_query");
            x.issued == [] <==> !Truthy(name) || !Truthy(sqlQuery)
    ensures x.issued == [] ==> x.reply == ErrorReply(400, "Missing indicator_name or sql_query")
    ensures x.issued != [] ==> x.issued[0] == ClientSql(Get(body, "sql_query"))
    ensures x.issued != [] && answer.Failed? ==> |x.issued| == 1 && x.reply == ErrorReply(500, answer.message)
    ensures x.issued != [] && answer.Rows? ==>
              && |x.issued| == 2 && x.issued[1].InsertIndicator?
              && x.issued[1].name == Get(body, "indicator_name")
              && x.issued[1].sqlQuery == Get(body, "sql_query")
              && x.issued[1].description == Get(body, "description")
              && x.issued[1].result == OptionJson(QueryResult(answer.rows))
              && x.reply == OkReply([("success", Bool(true)), ("query_result", OptionJson(QueryResult(answer.rows)))])
    ensures var createdBy := Get(body, "created_by");
            |x.issued| == 2 && x.issued[1].InsertIndicator? ==>
              x.issued[1].createdBy == (if Truthy(createdBy) then createdBy else Null)
  {
    var name, description := Get(body, "indicator_name"), Get(body, "description");
    var sqlQuery, createdBy := Get(body, "sql_query"), Get(body, "created_by");
    if !Truthy(name) || !Truthy(sqlQuery) then
      Exchange([], ErrorReply(400, "Missing indicator_name or sql_query"))
    else
      match answer
      case Failed(m) => Exchange([ClientSql(sqlQuery)], ErrorReply(500, m))
      case Rows(rows) =>
        var result := OptionJson(QueryResult(rows));
        var recordedBy := if Truthy(createdBy) then createdBy else Null;
        Exchange([ClientSql(sqlQuery), InsertIndicator(name, description, sqlQuery, result, recordedBy)],
                 OkReply([("success", Bool(true)), ("query_result", result)]))
  }
}

=== FILE: indicator.dfy ===
/** The value cached for a new indicator: the first value of the first
    result row that looks like an integer. */
module Indicator {
  import opened Wrappers
  import opened Strings
  import opened JsValues

  /** An integral number, or a non-empty string of decimal digits (the test
      `/^\d+$/`, whose `$` matches only at the very end). */
  predicate IsIntegerLike(v: JsVal) {
    || (v.Num? && v.n.Integral?)
    || (v.Str? && |v.s| > 0 && AllDigits(v.s))
  }

  /** The integer an integer-like value stands for: the number itself, or the
      base-10 value of the digit string. */
  function IntegerOf(v: JsVal): int
    requires IsIntegerLike(v)
  {
    if v.Num? then v.n.i else DigitsValue(v.s)
  }

  /** The scan over one row's values, in order, stopping at the first
      integer-like value; digit strings go through `parseInt(v, 10)`. */
  function FirstInteger(values: seq<JsVal>): (r: Option<int>)
    ensures r.None? <==> forall i | 0 <= i < |values| :: !IsIntegerLike(values[i])
    ensures r.Some? ==>
      exists i :: 0 <= i < |values| && IsIntegerLike(values[i]) && r.value == IntegerOf(values[i])
                  && forall j | 0 <= j < i :: !IsIntegerLike(values[j])
  {
    if |values| == 0 then None
    else
      var v := values[0];
      if v.Num? && v.n.Integral? then Some(v.n.i)
      else if v.Str? && |v.s| > 0 && AllDigits(v.s) then
        ParseIntOfDigits(v.s);
        Some(ParseInt(v.s).i)
      else
        var r := FirstInteger(values[1..]);
        assert forall i | 1 <= i < |values| :: values[i] == values[1..][i - 1];
        r
  }

  /** `query_result` for a new indicator, from the rows its query returned:
      `null` when there are no rows, otherwise the first integer-like value
      of the first row. */
  function QueryResult(rows: seq<Record>): (r: Option<int>)
    ensures |rows| == 0 ==> r == None
    ensures |rows| > 0 ==>
      (r.None? <==> forall i | 0 <= i < |rows[0]| :: !IsIntegerLike(rows[0][i].1))
    ensures r.Some? ==>
      exists i :: 0 <= i < |rows[0]| && IsIntegerLike(rows[0][i].1) && r.value == IntegerOf(rows[0][i].1)
                  && forall j | 0 <= j < i :: !IsIntegerLike(rows[0][j].1)
  {
    if |rows| == 0 then None else FirstInteger(Values(rows[0]))
  }
}

=== FILE: js_values.dfy ===
/** The JavaScript values that reach the handlers (parsed JSON bodies, query
    parameters, result-row cells, spreadsheet cells) and the three language
    operations the handlers apply to them: truthiness, conversion to a string
    (template-literal interpolation) and `parseInt(x, 10)`. */
module JsValues {
  import opened Strings

  /** A JavaScript number. Integral numbers are kept exactly; every other
      number is either NaN or a non-integral value (a fraction or an
      infinity), carried with the text the engine renders it as. */
  datatype Number = Integral(i: int) | NaN | NonIntegral(text: string)

  datatype JsVal =
    | Undefined
    | Null
    | Bool(b: bool)
    | Num(n: Number)
    | Str(s: string)
    | Arr(items: seq<JsVal>)
    | Obj(fields: Record)

  /** A plain object, as its own enumerable properties in enumeration order
      (the order `Object.keys` and `Object.values` report). A JavaScript
      object never holds two properties with the same key. */
  type Record = seq<(string, JsVal)>

  /** JavaScript truthiness: `undefined`, `null`, `false`, `0`, `NaN` and the
      empty string are falsy; every array and object is truthy. */
  predicate Truthy(v: JsVal) {
    match v
    case Undefined => false
    case Null => false
    case Bool(b) => b
    case Num(n) => n.NonIntegral? || (n.Integral? && n.i != 0)
    case Str(s) => |s| > 0
    case Arr(_) => true
    case Obj(_) => true
  }

  function Keys(r: Record): (ks: seq<string>)
    ensures |ks| == |r|
    ensures forall i | 0 <= i < |r| :: ks[i] == r[i].0
  {
    seq(|r|, i requires 0 <= i < |r| => r[i].0)
  }

  function Values(r: Record): (vs: seq<JsVal>)
    ensures |vs| == |r|
    ensures forall i | 0 <= i < |r| :: vs[i] == r[i].1
  {
    seq(|r|, i requires 0 <= i < |r| => r[i].1)
  }

  /** Property access `r[key]`: the value stored under `key`, `undefined`
      when the object has no such property. */
  function Get(r: Record, key: string): (v: JsVal)
    ensures key !in Keys(r) ==> v == Undefined
    ensures key in Keys(r) ==> exists i :: 0 <= i < |r| && r[i].0 == key && v == r[i].1
  {
    if |r| == 0 then Undefined
    else if r[0].0 == key then r[0].1
    else
      var v := Get(r[1..], key);
      assert Keys(r) == [r[0].0] + Keys(r[1..]);
      assert key in Keys(r[1..]) ==> exists i :: 0 <= i < |r[1..]| && r[1..][i].0 == key && v == r[1..][i].1;
      v
  }

  /** Decimal rendering of an integer, with a leading `-` when negative. */
  function ShowInt(i: int): string {
    if i < 0 then "-" + ShowNat(-i) else ShowNat(i)
  }

  function NumberToString(n: Number): string {
    match n
    case Integral(i) => ShowInt(i)
    case NaN => "NaN"
    case NonIntegral(text) => text
  }

  /** `String(v)`, which is what `${v}` in a template literal produces for
      every value here except an object with an own `toString` property,
      where JavaScript calls (or fails to call) that property instead.
      Arrays join their elements with "," and render `null` and `undefined`
      elements as empty; other objects render as `[object Object]`. */
  function ToJsString(v: JsVal): string {
    match v
    case Undefined => "undefined"
    case Null => "null"
    case Bool(b) => if b then "true" else "false"
    case Num(n) => NumberToString(n)
    case Str(s) => s
    case Arr(items) =>
      Join(",", seq(|items|, i requires 0 <= i < |items| =>
                      if items[i].Undefined? || items[i].Null? then "" else ToJsString(items[i])))
    case Obj(_) => "[object Object]"
  }

  /** `parseInt(s, 10)`: skip leading whitespace, take an optional sign, then
      the longest run of decimal digits; NaN when that run is empty. */
  function ParseInt(s: string): (n: Number)
    ensures n.Integral? || n.NaN?
  {
    ParseSigned(TrimStart(s))
  }

  /** Unary minus on what a digit run parsed to; NaN stays NaN. */
  function Negate(n: Number): Number {
    match n
    case Integral(v) => Integral(-v)
    case other => other
  }

  function ParseSigned(t: string): (n: Number)
    ensures n.Integral? || n.NaN?
  {
    if |t| > 0 && t[0] == '-' then Negate(ParseDigits(t[1..]))
    else if |t| > 0 && t[0] == '+' then ParseDigits(t[1..])
    else ParseDigits(t)
  }

  function ParseDigits(u: string): (n: Number)
    ensures n.Integral? || n.NaN?
  {
    var digits := DigitPrefix(u);
    if |digits| == 0 then NaN else Integral(DigitsValue(digits))
  }

  /** What `parseInt(s, 10)` returns, stated from the shape of `s`: leading
      whitespace, a non-empty run of digits and anything that does not
      continue the run. The two lemmas after it add a sign. */
  lemma {:induction false} ParseIntOfUnsigned(space: string, digits: string, rest: string)
    requires AllSpace(space)
    requires |digits| > 0 && AllDigits(digits)
    requires rest == [] || !IsDigit(rest[0])
    ensures ParseInt(space + (digits + rest)) == Integral(DigitsValue(digits))
  {
    var u := digits + rest;
    var v: int := DigitsValue(digits);
    DigitsThenRest(digits, rest);
    UnsignedText(u);
    ParseIntAfterSpace(space, u);
    assert ParseInt(space + u) == Integral(v);
  }

  lemma {:induction false} ParseIntOfNegative(space: string, digits: string, rest: string)
    requires AllSpace(space)
    requires |digits| > 0 && AllDigits(digits)
    requires rest == [] || !IsDigit(rest[0])
    ensures ParseInt(space + ("-" + (digits + rest))) == Integral(-(DigitsValue(digits) as int))
  {
    var u := digits + rest;
    var v: int := DigitsValue(digits);
    calc {
      ParseInt(space + ("-" + u));
      { NegativeChain(space, u); }
      Negate(ParseDigits(u));
      { DigitsThenRest(digits, rest); }
      Negate(Integral(v));
    }
  }

  lemma {:induction false} NegativeChain(space: string, u: string)
    requires AllSpace(space)
    requires |u| > 0 && IsDigit(u[0])
    ensures ParseInt(space + ("-" + u)) == Negate(ParseDigits(u))
  {
    NegativeText(u);
    ParseIntAfterSpace(space, "-" + u);
  }

  lemma {:induction false} ParseIntOfPositive(space: string, digits: string, rest: string)
    requires AllSpace(space)
    requires |digits| > 0 && AllDigits(digits)
    requires rest == [] || !IsDigit(rest[0])
    ensures ParseInt(space + ("+" + (digits + rest))) == Integral(DigitsValue(digits))
  {
    var u := digits + rest;
    var v: int := DigitsValue(digits);
    DigitsThenRest(digits, rest);
    PositiveChain(space, u, v);
    assert ParseInt(space + ("+" + u)) == Integral(v);
  }

  lemma {:induction false} PositiveChain(space: string, u: string, v: int)
    requires AllSpace(space)
    requires |u| > 0 && IsDigit(u[0]) && ParseDigits(u) == Integral(v)
    ensures ParseInt(space + ("+" + u)) == Integral(v)
  {
    PositiveText(u);
    ParseIntAfterSpace(space, "+" + u);
  }

  lemma {:induction false} DigitsThenRest(digits: string, rest: string)
    requires |digits| > 0 && AllDigits(digits)
    requires rest == [] || !IsDigit(rest[0])
    ensures |digits + rest| > 0 && IsDigit((digits + rest)[0])
    ensures ParseDigits(digits + rest) == Integral(DigitsValue(digits))
  {
    DigitPrefixOf(digits, rest);
  }

  /** Leading whitespace does not change what `parseInt` reads. */
  lemma {:induction false} ParseIntAfterSpace(space: string, w: string)
    requires AllSpace(space)
    requires w == [] || !IsSpace(w[0])
    ensures ParseInt(space + w) == ParseSigned(w)
  {
    TrimStartSkips(space, w);
  }

  lemma {:induction false} UnsignedText(u: string)
    requires |u| > 0 && IsDigit(u[0])
    ensures !IsSpace(u[0])
    ensures ParseSigned(u) == ParseDigits(u)
  {
    DigitNotSpace(u[0]);
  }

  lemma DigitNotSpace(c: char)
    requires IsDigit(c)
    ensures !IsSpace(c)
  {
  }

  lemma {:induction false} NegativeText(u: string)
    requires |u| > 0 && IsDigit(u[0])
    ensures ("-" + u)[0] == '-'
    ensures ParseSigned("-" + u) == Negate(ParseDigits(u))
  {
    assert ("-" + u)[1..] == u;
  }

  lemma {:induction false} PositiveText(u: string)
    requires |u| > 0 && IsDigit(u[0]) && ParseDigits(u).Integral?
    ensures ("+" + u)[0] == '+'
    ensures ParseSigned("+" + u) == ParseDigits(u)
  {
    assert ("+" + u)[1..] == u;
  }

  /** A digit string, as the all-digits test `/^\d+$/` accepts it, parses to
      its base-10 value. */
  lemma ParseIntOfDigits(s: string)
    requires |s| > 0 && AllDigits(s)
    ensures ParseInt(s) == Integral(DigitsValue(s))
  {
    assert "" + (s + "") == s;
    ParseIntOfUnsigned("", s, "");
  }

  /** `parseInt` reads back what `String` writes for an integer. */
  lemma ParseIntShowInt(i: int)
    ensures ParseInt(ShowInt(i)) == Integral(i)
  {
    if i < 0 {
      assert "" + ("-" + (ShowNat(-i) + "")) == ShowInt(i);
      ParseIntOfNegative("", ShowNat(-i), "");
    } else {
      assert "" + (ShowNat(i) + "") == ShowInt(i);
      ParseIntOfUnsigned("", ShowNat(i), "");
    }
  }
}

=== FILE: query_text.dfy ===
/** The two pieces of SQL-text handling in the gateway: the SELECT gate that
    the preview and save-dataset handlers apply to client SQL, and the
    preview rewrite that caps a statement at 20 rows unless it already
    carries a LIMIT clause. */
module QueryText {
  import opened Strings
  import opened JsValues

  const LimitSuffix: string := " LIMIT 20"

  /** The gate on client SQL: a non-empty string whose trimmed, lower-cased
      text starts with "select". */
  predicate IsSelect(sql: JsVal) {
    Truthy(sql) && sql.Str? && StartsWith(Lower(Trim(sql.s)), "select")
  }

  /** The gate, stated without trimming: the text is some whitespace
      followed by six characters that spell "select" in any ASCII case. */
  ghost predicate SelectAfterSpace(s: string) {
    exists k :: 0 <= k && k + 6 <= |s| && AllSpace(s[..k]) && Lower(s[k..k + 6]) == "select"
  }

  lemma {:induction false} IsSelectCharacterization(sql: JsVal)
    ensures IsSelect(sql) <==> sql.Str? && SelectAfterSpace(sql.s)
  {
    if sql.Str? {
      assert sql == Str(sql.s);
      if IsSelect(sql) {
        SelectGivesSpacePrefix(sql.s);
      }
      if SelectAfterSpace(sql.s) {
        var j :| 0 <= j && j + 6 <= |sql.s| && AllSpace(sql.s[..j]) && Lower(sql.s[j..j + 6]) == "select";
        SpacePrefixGivesSelect(sql.s, j);
        assert |Trim(sql.s)| <= |sql.s|;
      }
    }
  }

  lemma {:induction false} SelectGivesSpacePrefix(s: string)
    requires IsSelect(Str(s))
    ensures SelectAfterSpace(s)
  {
    var t := TrimStart(s);
    var k := |s| - |t|;
    var m := Trim(s);
    assert m == t[..|m|];
    assert s[k..k + 6] == m[..6];
    LowerPrefix(m, 6);
    assert Lower(s[k..k + 6]) == "select";
  }

  lemma {:induction false} SpacePrefixGivesSelect(s: string, j: nat)
    requires j + 6 <= |s| && AllSpace(s[..j]) && Lower(s[j..j + 6]) == "select"
    ensures StartsWith(Lower(Trim(s)), "select")
  {
    var t := s[j..];
    var w := s[j..j + 6];
    assert w == t[..6];
    SelectWordEnds(w);
    assert s == s[..j] + t;
    TrimStartSkips(s[..j], t);
    TrimEndKeeps(t, 6);
    var m := TrimEnd(t);
    assert m[..6] == w;
    LowerPrefix(m, 6);
  }

  /** "select" in any case neither starts nor ends with whitespace. */
  lemma {:induction false} SelectWordEnds(w: string)
    requires |w| == 6 && Lower(w) == "select"
    ensures !IsSpace(w[0]) && !IsSpace(w[5])
  {
    assert LowerChar(w[0]) == 's' && LowerChar(w[5]) == 't';
  }

  /** One match of `/limit\s+\d+/i` at positions i..k: "limit" in any ASCII
      case, then whitespace up to j, then digits up to k. */
  ghost predicate LimitMatchAt(s: string, i: int, j: int, k: int) {
    0 <= i && i + 5 < j < k <= |s|
    && Lower(s[i..i + 5]) == "limit" && AllSpace(s[i + 5..j]) && AllDigits(s[j..k])
  }

  /** `/limit\s+\d+/i.test(s)`. */
  ghost predicate MatchesLimit(s: string) {
    exists i, j, k :: LimitMatchAt(s, i, j, k)
  }

  /** The first position at or after j that is not whitespace. */
  function SkipSpaces(s: string, j: nat): (r: nat)
    requires j <= |s|
    ensures j <= r <= |s|
    ensures AllSpace(s[j..r])
    ensures r == |s| || !IsSpace(s[r])
    decreases |s| - j
  {
    if j < |s| && IsSpace(s[j]) then
      var r := SkipSpaces(s, j + 1);
      assert s[j..r] == [s[j]] + s[j + 1..r];
      r
    else
      j
  }

  /** The scanner's test at one position: "limit", at least one whitespace
      character, and a digit right after the whitespace run. */
  predicate LimitClauseAt(s: string, i: nat) {
    && i + 5 < |s|
    && Lower(s[i..i + 5]) == "limit"
    && IsSpace(s[i + 5])
    && var j := SkipSpaces(s, i + 5);
       j < |s| && IsDigit(s[j])
  }

  predicate HasLimitClause(s: string) {
    exists i | 0 <= i < |s| :: LimitClauseAt(s, i)
  }

  /** The scanner finds a LIMIT clause exactly when the regular expression
      matches. */
  lemma {:induction false} HasLimitClauseMatches(s: string)
    ensures HasLimitClause(s) <==> MatchesLimit(s)
  {
    if HasLimitClause(s) {
      var i :| 0 <= i < |s| && LimitClauseAt(s, i);
      ClauseGivesMatch(s, i);
    }
    if MatchesLimit(s) {
      var i, j, k :| LimitMatchAt(s, i, j, k);
      MatchGivesClause(s, i, j, k);
    }
  }

  lemma {:induction false} ClauseGivesMatch(s: string, i: nat)
    requires LimitClauseAt(s, i)
    ensures MatchesLimit(s)
  {
    var j := SkipSpaces(s, i + 5);
    assert s[i + 5..j] == [s[i + 5]] + s[i + 6..j] by {
      assert SkipSpaces(s, i + 5) == SkipSpaces(s, i + 6);
    }
    assert s[j..j + 1] == [s[j]];
    assert LimitMatchAt(s, i, j, j + 1);
  }

  lemma {:induction false} MatchGivesClause(s: string, i: int, j: int, k: int)
    requires LimitMatchAt(s, i, j, k)
    ensures HasLimitClause(s)
  {
    assert IsSpace(s[i + 5]) by { assert s[i + 5..j][0] == s[i + 5]; }
    var r := SkipSpaces(s, i + 5);
    assert IsDigit(s[j]) by { assert s[j..k][0] == s[j]; }
    assert r == j;
    assert LimitClauseAt(s, i);
  }

  /** The text the preview rewrite starts from: trimmed, with every trailing
      semicolon removed. */
  function PreviewBase(sql: string): (r: string)
    ensures StartsWith(Trim(sql), r)
    ensures forall i | |r| <= i < |Trim(sql)| :: Trim(sql)[i] == ';'
    ensures r == [] || r[|r| - 1] != ';'
  {
    StripTrailingSemicolons(Trim(sql))
  }

  /** The preview rewrite at server/index.js:161-164. */
  function PreviewRewrite(sql: string): (r: string)
    ensures StartsWith(r, PreviewBase(sql))
    ensures MatchesLimit(r)
  {
    var t := PreviewBase(sql);
    HasLimitClauseMatches(t);
    if HasLimitClause(t) then t
    else
      AppendedLimitMatches(t);
      t + LimitSuffix
  }

  /** The appended " LIMIT 20" is itself a match of the LIMIT pattern. */
  lemma {:induction false} AppendedLimitMatches(t: string)
    ensures LimitMatchAt(t + LimitSuffix, |t| + 1, |t| + 7, |t| + 8)
  {
    var r := t + LimitSuffix;
    assert r[|t| + 1..|t| + 6] == "LIMIT";
    assert r[|t| + 6..|t| + 7] == " ";
    assert r[|t| + 7..|t| + 8] == "2";
  }

  /** An existing LIMIT clause is kept as it is; otherwise " LIMIT 20" is
      appended, and nothing else changes. */
  lemma {:induction false} PreviewRewriteLimit(sql: string)
    ensures MatchesLimit(PreviewBase(sql)) ==> PreviewRewrite(sql) == PreviewBase(sql)
    ensures !MatchesLimit(PreviewBase(sql)) ==> PreviewRewrite(sql) == PreviewBase(sql) + LimitSuffix
  {
    HasLimitClauseMatches(PreviewBase(sql));
  }

  /** Text the gate accepts keeps its leading "select" through trimming and
      the semicolon strip, so the rewrite starts from non-whitespace. */
  lemma {:induction false} PreviewBaseOfSelect(sql: JsVal)
    requires IsSelect(sql)
    ensures |PreviewBase(sql.s)| >= 6 && !IsSpace(PreviewBase(sql.s)[0])
  {
    var u := Trim(sql.s);
    var t := PreviewBase(sql.s);
    assert Lower(u)[..6] == "select";
    assert LowerChar(u[5]) == Lower(u)[..6][5];
    assert |t| >= 6;
    assert t[0] == u[0];
    assert LowerChar(u[0]) == Lower(u)[..6][0];
  }

  /** On accepted SQL the rewrite is idempotent exactly when its result does
      not end in whitespace. The source trims before it strips semicolons,
      so "select 1 limit 5 ;" leaves a trailing space that a second rewrite
      would trim. */
  lemma {:induction false} PreviewRewriteIdempotent(sql: JsVal)
    requires IsSelect(sql)
    ensures var r := PreviewRewrite(sql.s);
            PreviewRewrite(r) == r <==> !IsSpace(r[|r| - 1])
  {
    PreviewBaseOfSelect(sql);
    RewriteIdempotentFromBase(sql.s);
  }

  lemma {:induction false} RewriteIdempotentFromBase(s: string)
    requires |PreviewBase(s)| > 0 && !IsSpace(PreviewBase(s)[0])
    ensures var r := PreviewRewrite(s);
            PreviewRewrite(r) == r <==> !IsSpace(r[|r| - 1])
  {
    var t := PreviewBase(s);
    PreviewRewriteLimit(s);
    if MatchesLimit(t) {
      assert PreviewRewrite(s) == t;
      RewriteOfKept(t);
    } else {
      assert PreviewRewrite(s) == t + LimitSuffix;
      RewriteOfAppended(t);
      LastOfAppended(t);
    }
  }

  lemma {:induction false} LastOfAppended(t: string)
    ensures var r := t + LimitSuffix; r[|r| - 1] == '0' && !IsSpace(r[|r| - 1])
  {
  }

  /** A base that already carries a LIMIT clause is a fixed point exactly
      when it does not end in whitespace. */
  lemma {:induction false} RewriteOfKept(t: string)
    requires |t| > 0 && !IsSpace(t[0]) && t[|t| - 1] != ';'
    requires MatchesLimit(t)
    ensures PreviewRewrite(t) == t <==> !IsSpace(t[|t| - 1])
  {
    PreviewRewriteLimit(t);
    if !IsSpace(t[|t| - 1]) {
      TrimKeeps(t);
      assert PreviewBase(t) == t;
    } else {
      TrimShortens(t);
      RewriteChangesSpaced(t);
    }
  }

  /** A text ending in whitespace is never its own rewrite: the rewrite is
      either a shorter prefix or ends in "20". */
  lemma {:induction false} RewriteChangesSpaced(t: string)
    requires |t| > 0 && IsSpace(t[|t| - 1]) && |Trim(t)| < |t|
    ensures PreviewRewrite(t) != t
  {
    var b := PreviewBase(t);
    assert |b| < |t|;
    PreviewRewriteLimit(t);
    if !MatchesLimit(b) {
      var r := PreviewRewrite(t);
      assert r[|r| - 1] == '0';
    }
  }

  /** Once " LIMIT 20" has been appended, rewriting again changes nothing. */
  lemma {:induction false} RewriteOfAppended(t: string)
    requires |t| > 0 && !IsSpace(t[0])
    ensures PreviewRewrite(t + LimitSuffix) == t + LimitSuffix
  {
    var r := t + LimitSuffix;
    assert r[0] == t[0] && r[|r| - 1] == '0';
    assert [] + r + [] == r;
    TrimCharacterization([], r, []);
    assert PreviewBase(r) == r;
    AppendedLimitMatches(t);
    PreviewRewriteLimit(r);
  }

  lemma {:induction false} TrimShortens(t: string)
    requires |t| > 0 && IsSpace(t[|t| - 1])
    ensures |Trim(t)| < |t|
  {
    var u := TrimStart(t);
    if |u| > 0 {
      assert u[|u| - 1] == t[|t| - 1];
      assert |TrimEnd(u)| < |u|;
    }
  }

  /** A statement that already says "LIMIT 5" keeps its limit of 5. */
  lemma PreviewKeepsExistingLimit()
    ensures PreviewRewrite("select * from x LIMIT 5;") == "select * from x LIMIT 5"
  {
    var t := "select * from x LIMIT 5";
    assert t == "select * from x " + ("LIMIT" + (" " + ("5" + "")));
    LimitMatchOf("select * from x ", "LIMIT", " ", "5", "");
    assert t[0] == 's' && t[22] == '5';
    assert t + ";" == "select * from x LIMIT 5;";
    RewriteDropsSemicolon(t);
  }

  /** Any keyword spelling of "limit", whitespace and digits, wherever they
      stand, make a match. */
  lemma {:induction false} LimitMatchOf(pre: string, kw: string, sp: string, d: string, post: string)
    requires |kw| == 5 && Lower(kw) == "limit"
    requires |sp| > 0 && AllSpace(sp) && |d| > 0 && AllDigits(d)
    ensures MatchesLimit(pre + (kw + (sp + (d + post))))
  {
    var s := pre + (kw + (sp + (d + post)));
    var i, j, k := |pre|, |pre| + 5 + |sp|, |pre| + 5 + |sp| + |d|;
    assert s[i..i + 5] == kw;
    assert s[i + 5..j] == sp;
    assert s[j..k] == d;
    assert LimitMatchAt(s, i, j, k);
  }

  /** A single trailing semicolon after a text that already has a LIMIT
      clause is dropped and nothing else changes, not even whitespace
      before the semicolon. */
  lemma {:induction false} RewriteDropsSemicolon(t: string)
    requires |t| > 0 && !IsSpace(t[0]) && t[|t| - 1] != ';'
    requires MatchesLimit(t)
    ensures PreviewRewrite(t + ";") == t
  {
    var u := t + ";";
    assert u[0] == t[0] && u[|u| - 1] == ';';
    TrimKeeps(u);
    assert u[..|u| - 1] == t;
    assert StripTrailingSemicolons(u) == t;
    PreviewRewriteLimit(u);
  }

  /** The rewrite is not idempotent on every accepted statement. */
  lemma PreviewRewriteNotIdempotent()
    ensures PreviewRewrite(PreviewRewrite("select 1 limit 5 ;")) != PreviewRewrite("select 1 limit 5 ;")
  {
    SpacedSemicolonIsSelect();
    SpacedSemicolonRewrite();
    PreviewRewriteIdempotent(Str("select 1 limit 5 ;"));
    assert "select 1 limit 5 "[16] == ' ';
  }

  lemma SpacedSemicolonIsSelect()
    ensures IsSelect(Str("select 1 limit 5 ;"))
  {
    LowerSelectAccepted("select 1 limit 5 ;");
  }

  lemma {:induction false} LowerSelectAccepted(s: string)
    requires |s| >= 6 && s[..6] == "select"
    ensures IsSelect(Str(s))
  {
    assert s[0..6] == s[..6];
    assert Lower(s[..6]) == "select";
    SpacePrefixGivesSelect(s, 0);
  }

  lemma SpacedSemicolonRewrite()
    ensures PreviewRewrite("select 1 limit 5 ;") == "select 1 limit 5 "
  {
    var t := "select 1 limit 5 ";
    assert t == "select 1 " + ("limit" + (" " + ("5" + " ")));
    LimitMatchOf("select 1 ", "limit", " ", "5", " ");
    assert t[0] == 's' && t[16] == ' ';
    assert t + ";" == "select 1 limit 5 ;";
    RewriteDropsSemicolon(t);
  }
}

=== FILE: statements.dfy ===
/** The statements the handlers send to the store, as query shapes, and the
    SQL text and parameter list each shape is sent as. Identifiers are
    interpolated between double quotes without escaping, as the source does;
    values travel as positional parameters `$1, $2, ...`. */
module Statements {
  import opened Strings
  import opened JsValues

  /** What a grouped count counts per group. */
  datatype CountArg = AllRows | NonNull(column: string)

  datatype Query =
    | IndicatorLookup(name: JsVal)
    | ColumnCount(table: string, column: string)
    | ColumnSelect(table: string, columns: seq<string>)
    | GroupCount(table: string, xAxis: string, count: CountArg)
    | SampleRows(table: string, limit: int)
      /** Client SQL sent to the store as it stands. */
    | ClientSql(query: JsVal)
    | PreviewQuery(text: string)
    | EnsureDatasetMaster
    | InsertDataset(name: JsVal, sqlText: string)
    | InsertIndicator(name: JsVal, description: JsVal, sqlQuery: JsVal, result: JsVal, createdBy: JsVal)
    | CreateTextTable(table: string, columns: seq<string>)
    | InsertRow(table: string, columns: seq<string>, values: seq<JsVal>)

  datatype Sql = Sql(text: string, params: seq<JsVal>)

  function Quote(id: string): string {
    "\"" + id + "\""
  }

  function QuoteAll(ids: seq<string>): (qs: seq<string>)
    ensures |qs| == |ids|
    ensures forall i | 0 <= i < |ids| :: qs[i] == Quote(ids[i])
  {
    seq(|ids|, i requires 0 <= i < |ids| => Quote(ids[i]))
  }

  /** The parameter markers of an n-value insert, `$1` to `$n`. */
  function Placeholders(n: nat): (ps: seq<string>)
    ensures |ps| == n
    ensures forall i | 0 <= i < n :: ps[i] == Marker(i + 1)
  {
    seq(n, i requires 0 <= i < n => Marker(i + 1))
  }

  function Marker(k: nat): string {
    "$" + ShowNat(k)
  }

  /** Marker k is `$` followed by a numeral that `parseInt` reads as k. */
  lemma {:induction false} MarkerNames(k: nat)
    ensures |Marker(k)| > 1 && Marker(k)[0] == '$'
    ensures ParseInt(Marker(k)[1..]) == Integral(k)
  {
    assert Marker(k)[1..] == ShowNat(k) == ShowInt(k);
    ParseIntShowInt(k);
  }

  /** The i-th marker (from 0) names exactly the value at position i. */
  lemma {:induction false} PlaceholdersNamePositions(n: nat)
    ensures forall i | 0 <= i < n ::
              |Placeholders(n)[i]| > 1 && Placeholders(n)[i][0] == '$'
              && ParseInt(Placeholders(n)[i][1..]) == Integral(i + 1)
  {
    forall i | 0 <= i < n
      ensures |Placeholders(n)[i]| > 1 && Placeholders(n)[i][0] == '$'
      ensures ParseInt(Placeholders(n)[i][1..]) == Integral(i + 1)
    {
      assert Placeholders(n)[i] == Marker(i + 1);
      MarkerNames(i + 1);
    }
  }

  const DatasetMasterDdl: string :=
    "CREATE TABLE IF NOT EXISTS dataset_master (\n"
    + "      id SERIAL PRIMARY KEY,\n"
    + "      dataset_name TEXT NOT NULL,\n"
    + "      sql_query TEXT NOT NULL,\n"
    + "      created_on TIMESTAMP DEFAULT NOW(),\n"
    + "      created_by INTEGER\n"
    + "    )"

  function GroupCountText(table: string, xAxis: string, countExpr: string): string {
    "\n        SELECT " + Quote(xAxis) + " as xAxisValue, COUNT(" + countExpr + ") as count\n"
    + "        FROM " + Quote(table) + "\n"
    + "        GROUP BY " + Quote(xAxis) + "\n"
    + "        ORDER BY xAxisValue\n      "
  }

  /** The text and parameters the source passes to `pool.query`. */
  function ToSql(q: Query): Sql {
    match q
    case IndicatorLookup(name) =>
      Sql("SELECT query_result FROM indicator_master WHERE indicator_name = $1", [name])
    case ColumnCount(table, column) =>
      Sql("SELECT COUNT(" + Quote(column) + ") AS cnt FROM " + Quote(table), [])
    case ColumnSelect(table, columns) =>
      Sql("SELECT " + Join(", ", QuoteAll(columns)) + " FROM " + Quote(table), [])
    case GroupCount(table, xAxis, count) =>
      var countExpr := match count case AllRows => "*" case NonNull(c) => Quote(c);
      Sql(GroupCountText(table, xAxis, countExpr), [])
    case SampleRows(table, limit) =>
      Sql("SELECT * FROM " + Quote(table) + " LIMIT $1", [Num(Integral(limit))])
    case ClientSql(query) =>
      Sql(ToJsString(query), [])
    case PreviewQuery(text) =>
      Sql(text, [])
    case EnsureDatasetMaster =>
      Sql(DatasetMasterDdl, [])
    case InsertDataset(name, sql) =>
      Sql("INSERT INTO dataset_master (dataset_name, sql_query, created_by) VALUES ($1, $2, $3)",
          [name, Str(sql), Undefined])
    case InsertIndicator(name, description, sql, result, createdBy) =>
      Sql("INSERT INTO indicator_master (indicator_name, description, sql_query, query_result, created_by) "
          + "VALUES ($1, $2, $3, $4, $5)",
          [name, description, sql, result, createdBy])
    case CreateTextTable(table, columns) =>
      var defs := seq(|columns|, i requires 0 <= i < |columns| => Quote(columns[i]) + " TEXT");
      Sql("CREATE TABLE IF NOT EXISTS " + Quote(table) + " (" + Join(", ", defs) + ")", [])
    case InsertRow(table, columns, values) =>
      Sql("INSERT INTO " + Quote(table) + " (" + Join(", ", QuoteAll(columns)) + ") VALUES ("
          + Join(", ", Placeholders(|columns|)) + ")",
          values)
  }
}

=== FILE: strings.dfy ===
/** Character and string primitives the request handlers rely on: the
    whitespace that `String.prototype.trim` removes and that `\s` matches,
    ASCII lower-casing, decimal digits, and the joining of string lists. */
module Strings {

  /** ECMAScript WhiteSpace and LineTerminator code points, the one set that
      both `trim()` and the regular-expression class `\s` use. The Zs members
      are those of a fixed Unicode version; a Dafny `char` is a Unicode scalar
      value where a JavaScript string holds UTF-16 code units, which differs
      only for astral characters, none of which is whitespace. */
  predicate IsSpace(c: char) {
    || c == '\t' || c == '\n' || c == '\U{000B}' || c == '\U{000C}' || c == '\r'
    || c == ' ' || c == '\U{00A0}' || c == '\U{1680}'
    || ('\U{2000}' <= c <= '\U{200A}')
    || c == '\U{2028}' || c == '\U{2029}' || c == '\U{202F}' || c == '\U{205F}'
    || c == '\U{3000}' || c == '\U{FEFF}'
  }

  predicate AllSpace(s: string) {
    forall i | 0 <= i < |s| :: IsSpace(s[i])
  }

  /** Drops the maximal whitespace prefix: the result is the suffix that is
      left, everything dropped is whitespace, and the result does not start
      with whitespace. */
  function TrimStart(s: string): (r: string)
    ensures |r| <= |s| && r == s[|s| - |r|..]
    ensures AllSpace(s[..|s| - |r|])
    ensures r == [] || !IsSpace(r[0])
  {
    if |s| > 0 && IsSpace(s[0]) then
      var r := TrimStart(s[1..]);
      assert s[..|s| - |r|] == [s[0]] + s[1..][..|s| - 1 - |r|];
      r
    else
      s
  }

  /** Drops the maximal whitespace suffix. */
  function TrimEnd(s: string): (r: string)
    ensures |r| <= |s| && r == s[..|r|]
    ensures AllSpace(s[|r|..])
    ensures forall i | |r| <= i < |s| :: IsSpace(s[i])
    ensures r == [] || !IsSpace(r[|r| - 1])
  {
    if |s| > 0 && IsSpace(s[|s| - 1]) then
      var r := TrimEnd(s[..|s| - 1]);
      assert s[|r|..] == s[..|s| - 1][|r|..] + [s[|s| - 1]];
      r
    else
      s
  }

  /** `String.prototype.trim`. */
  function Trim(s: string): (r: string)
    ensures |r| <= |s|
    ensures r == [] || (!IsSpace(r[0]) && !IsSpace(r[|r| - 1]))
  {
    TrimEnd(TrimStart(s))
  }

  lemma {:induction false} TrimStartSkips(p: string, t: string)
    requires AllSpace(p)
    requires t == [] || !IsSpace(t[0])
    ensures TrimStart(p + t) == t
    decreases |p|
  {
    if |p| > 0 {
      assert (p + t)[1..] == p[1..] + t;
      TrimStartSkips(p[1..], t);
    } else {
      assert p + t == t;
    }
  }

  lemma {:induction false} TrimEndSkips(t: string, q: string)
    requires AllSpace(q)
    requires t == [] || !IsSpace(t[|t| - 1])
    ensures TrimEnd(t + q) == t
    decreases |q|
  {
    if |q| > 0 {
      assert (t + q)[..|t + q| - 1] == t + q[..|q| - 1];
      TrimEndSkips(t, q[..|q| - 1]);
    } else {
      assert t + q == t;
    }
  }

  /** `trim()` is determined by what it keeps: for any text split into a
      whitespace prefix, a middle that neither starts nor ends with
      whitespace, and a whitespace suffix, the trimmed text is the middle. */
  lemma TrimCharacterization(p: string, m: string, q: string)
    requires AllSpace(p) && AllSpace(q)
    requires m == [] || (!IsSpace(m[0]) && !IsSpace(m[|m| - 1]))
    ensures Trim(p + m + q) == m
  {
    if m == [] {
      assert p + m + q == (p + q) + [];
      assert AllSpace(p + q);
      TrimStartSkips(p + q, []);
    } else {
      assert p + m + q == p + (m + q);
      TrimStartSkips(p, m + q);
      TrimEndSkips(m, q);
    }
  }

  /** A text that neither starts nor ends with whitespace is its own trim. */
  lemma {:induction false} TrimKeeps(m: string)
    requires |m| > 0 && !IsSpace(m[0]) && !IsSpace(m[|m| - 1])
    ensures Trim(m) == m
  {
    assert [] + m == m && m + [] == m;
    TrimStartSkips([], m);
    TrimEndSkips(m, []);
  }

  /** Trailing whitespace removal never cuts into a prefix that ends with a
      non-whitespace character. */
  lemma {:induction false} TrimEndKeeps(t: string, n: nat)
    requires 0 < n <= |t| && !IsSpace(t[n - 1])
    ensures |TrimEnd(t)| >= n && TrimEnd(t)[..n] == t[..n]
  {
  }

  /** Lower-casing commutes with taking a prefix. */
  lemma {:induction false} LowerPrefix(m: string, n: nat)
    requires n <= |m|
    ensures Lower(m)[..n] == Lower(m[..n])
  {
  }

  /** Trimming twice is trimming once. */
  lemma TrimIdempotent(s: string)
    ensures Trim(Trim(s)) == Trim(s)
  {
    var m := Trim(s);
    assert [] + m + [] == m;
    TrimCharacterization([], m, []);
  }

  function LowerChar(c: char): char {
    if 'A' <= c <= 'Z' then (c as int + 32) as char else c
  }

  /** ASCII lower-casing. Exact for the prefix and keyword tests made with it
      here: no character outside ASCII lower-cases to an ASCII letter of
      "select" or "limit" (nor does the regular-expression `i` flag fold one
      onto them). */
  function Lower(s: string): (r: string)
    ensures |r| == |s|
    ensures forall i | 0 <= i < |s| :: r[i] == LowerChar(s[i])
  {
    seq(|s|, i requires 0 <= i < |s| => LowerChar(s[i]))
  }

  predicate StartsWith(s: string, prefix: string) {
    |prefix| <= |s| && s[..|prefix|] == prefix
  }

  /** The regular-expression replacement `s.replace(/;*$/, '')`: the leftmost
      match of `;*` that reaches the end is the whole run of trailing
      semicolons, and it is removed. */
  function StripTrailingSemicolons(s: string): (r: string)
    ensures |r| <= |s| && r == s[..|r|]
    ensures forall i | |r| <= i < |s| :: s[i] == ';'
    ensures r == [] || r[|r| - 1] != ';'
  {
    if |s| > 0 && s[|s| - 1] == ';' then StripTrailingSemicolons(s[..|s| - 1]) else s
  }

  predicate IsDigit(c: char) {
    '0' <= c <= '9'
  }

  predicate AllDigits(s: string) {
    forall i | 0 <= i < |s| :: IsDigit(s[i])
  }

  /** The base-10 value of a digit string, most significant digit first. */
  function DigitsValue(s: string): nat
    requires AllDigits(s)
  {
    if |s| == 0 then 0 else DigitsValue(s[..|s| - 1]) * 10 + (s[|s| - 1] as int - '0' as int)
  }

  function DigitChar(d: nat): char
    requires d < 10
  {
    ('0' as int + d) as char
  }

  /** Decimal rendering of a natural number: a non-empty digit string with
      no leading zero whose base-10 value is `n`. */
  function ShowNat(n: nat): (r: string)
    ensures |r| > 0 && AllDigits(r)
    ensures DigitsValue(r) == n
    ensures |r| > 1 ==> r[0] != '0'
  {
    if n < 10 then [DigitChar(n)]
    else
      var h := ShowNat(n / 10);
      var r := h + [DigitChar(n % 10)];
      assert r[..|r| - 1] == h;
      r
  }

  /** The longest prefix made of decimal digits. */
  function DigitPrefix(s: string): (r: string)
    ensures |r| <= |s| && r == s[..|r|] && AllDigits(r)
    ensures |r| == |s| || !IsDigit(s[|r|])
  {
    if |s| > 0 && IsDigit(s[0]) then
      var t := DigitPrefix(s[1..]);
      var r := [s[0]] + t;
      assert r == s[..|r|];
      r
    else
      []
  }

  lemma {:induction false} DigitPrefixOf(d: string, rest: string)
    requires AllDigits(d)
    requires rest == [] || !IsDigit(rest[0])
    ensures DigitPrefix(d + rest) == d
    decreases |d|
  {
    if |d| > 0 {
      assert (d + rest)[1..] == d[1..] + rest;
      DigitPrefixOf(d[1..], rest);
      assert [d[0]] + d[1..] == d;
    } else {
      assert d + rest == rest;
    }
  }

  /** `parts.join(sep)`. */
  function Join(sep: string, parts: seq<string>): string {
    if |parts| == 0 then ""
    else if |parts| == 1 then parts[0]
    else parts[0] + sep + Join(sep, parts[1..])
  }
}

=== FILE: upload.dfy ===
/** POST /api/upload-xlsx: the statements built from the rows of the first
    worksheet. The workbook parsing itself is not modelled; the handler gets
    the rows as the parser produced them (one object per data row, keyed by
    the header cells, empty cells as `null`). */
module Upload {
  import opened Strings
  import opened JsValues
  import opened Statements
  import opened Gateway

  /** A JavaScript object never repeats a key. */
  predicate DistinctKeys(r: Record) {
    forall i, j | 0 <= i < j < |r| :: r[i].0 != r[j].0
  }

  /** The INSERT for one row: the table's columns in order, and under each
      the row's value for that column, `undefined` (sent as NULL) when the
      row has no such key. Keys the row has beyond the columns are dropped. */
  function InsertFor(table: string, columns: seq<string>, row: Record): (q: Query)
    ensures q.InsertRow? && q.table == table && q.columns == columns
    ensures |q.values| == |columns|
    ensures forall i | 0 <= i < |columns| :: columns[i] !in Keys(row) ==> q.values[i] == Undefined
    ensures forall i | 0 <= i < |columns| ::
              columns[i] in Keys(row) ==> exists j :: 0 <= j < |row| && row[j] == (columns[i], q.values[i])
  {
    InsertRow(table, columns, seq(|columns|, i requires 0 <= i < |columns| => Get(row, columns[i])))
  }

  /** One INSERT per sheet row, in sheet order. */
  function InsertsFor(table: string, columns: seq<string>, sheet: seq<Record>): (qs: seq<Query>)
    ensures |qs| == |sheet|
    ensures forall k | 0 <= k < |sheet| :: qs[k] == InsertFor(table, columns, sheet[k])
  {
    seq(|sheet|, k requires 0 <= k < |sheet| => InsertFor(table, columns, sheet[k]))
  }

  function UploadXlsx(hasFile: bool, table: JsVal, sheet: seq<Record>): (x: Exchange)
    ensures x.issued == [] <==> !hasFile || !Truthy(table) || |sheet| == 0
    ensures !hasFile || !Truthy(table) ==> x.reply == ErrorReply(400, "Missing file or table name")
    ensures hasFile && Truthy(table) && |sheet| == 0 ==> x.reply == ErrorReply(400, "No data found in the Excel sheet")
    ensures x.issued != [] ==>
              && |x.issued| == |sheet| + 1
              && x.issued[0] == CreateTextTable(ToJsString(table), Keys(sheet[0]))
              && forall k | 0 <= k < |sheet| ::
                   x.issued[k + 1] == InsertFor(ToJsString(table), Keys(sheet[0]), sheet[k])
    ensures x.issued != [] ==>
              x.reply == OkReply([("success", Bool(true)), ("message", Str("File uploaded and data inserted!"))])
  {
    if !hasFile || !Truthy(table) then
      Exchange([], ErrorReply(400, "Missing file or table name"))
    else if |sheet| == 0 then
      Exchange([], ErrorReply(400, "No data found in the Excel sheet"))
    else
      var name := ToJsString(table);
      var columns := Keys(sheet[0]);
      var inserts := InsertsFor(name, columns, sheet);
      assert forall k | 0 <= k < |sheet| :: ([CreateTextTable(name, columns)] + inserts)[k + 1] == inserts[k];
      Exchange([CreateTextTable(name, columns)] + inserts,
               OkReply([("success", Bool(true)), ("message", Str("File uploaded and data inserted!"))]))
  }

  /** The first row goes in whole: its values, in its own key order, are the
      values of its INSERT. */
  lemma {:induction false} FirstRowInsertedWhole(table: string, first: Record)
    requires DistinctKeys(first)
    ensures InsertFor(table, Keys(first), first).values == Values(first)
  {
    var q := InsertFor(table, Keys(first), first);
    forall i | 0 <= i < |first|
      ensures q.values[i] == first[i].1
    {
      GetOwnKey(first, i);
    }
  }

  /** In an object without repeated keys, each key reads back its own value. */
  lemma {:induction false} GetOwnKey(r: Record, i: nat)
    requires DistinctKeys(r) && i < |r|
    ensures Get(r, r[i].0) == r[i].1
  {
    assert Keys(r)[i] == r[i].0;
    var v := Get(r, r[i].0);
    var j :| 0 <= j < |r| && r[j].0 == r[i].0 && v == r[j].1;
    assert j == i;
  }

  /** The text and parameters a row's INSERT is sent as: one parameter per
      column, holding the row's value for that column, and a text that names
      the table and ends with the markers `$1` to `$n`, in order. */
  lemma {:induction false} InsertSqlBindsRow(table: string, columns: seq<string>, row: Record)
    ensures var sql := ToSql(InsertFor(table, columns, row));
            && |sql.params| == |columns|
            && (forall i | 0 <= i < |columns| :: sql.params[i] == Get(row, columns[i]))
            && StartsWith(sql.text, "INSERT INTO " + Quote(table) + " (")
    ensures var sql := ToSql(InsertFor(table, columns, row));
            var tail := "VALUES (" + Join(", ", Placeholders(|columns|)) + ")";
            |tail| <= |sql.text| && sql.text[|sql.text| - |tail|..] == tail
  {
    var q := InsertFor(table, columns, row);
    var head := "INSERT INTO " + Quote(table) + " (";
    var mid := Join(", ", QuoteAll(columns)) + ") ";
    var tail := "VALUES (" + Join(", ", Placeholders(|columns|)) + ")";
    assert ToSql(q).text == head + mid + tail;
  }

  /** A row's INSERT depends only on its values under the first row's keys:
      two rows that agree there give the same statement, whatever other keys
      they carry. */
  lemma {:induction false} InsertIgnoresOtherKeys(table: string, columns: seq<string>, r1: Record, r2: Record)
    requires forall i | 0 <= i < |columns| :: Get(r1, columns[i]) == Get(r2, columns[i])
    ensures InsertFor(table, columns, r1) == InsertFor(table, columns, r2)
  {
    assert InsertFor(table, columns, r1).values == InsertFor(table, columns, r2).values;
  }
}

=== FILE: wrappers.dfy ===
/** The optional value used wherever the gateway produces JavaScript `null`
    for "nothing found". */
module Wrappers {

  datatype Option<+T> = None | Some(value: T)
}
